=== FILE: README.md ===
# First-person navigation and audio hue — a Dafny model

This project models the logic core of an audio-reactive 3D concert scene
viewed in first person (`js/scripts.js`):

- **Input controller** (module `Input`). Pointer, button and key events
  update a current snapshot. A once-per-frame update turns the snapshot into
  frame deltas and keeps a copy as the previous snapshot. The controller is
  "ready" once a baseline snapshot exists. The process-wide camera-look
  toggle is the record field `lookEnabled`.
- **First-person camera step** (module `Camera`). Each frame is gated on
  readiness. It updates yaw and clamped pitch from the mouse delta, moves
  along the yaw-only directions from W/A/S/D, and advances the head-bob
  phase timer. The input update always runs afterwards. `Run` chains frames
  of events.
- **Look-target selection** (module `LookTarget`). A scan over bounding
  boxes picks the closest ray hit, or a fallback point. Ray/box
  intersection and distance are parameters of the scan.
- **Linear spline** (module `Spline`). The spline is generic over the value
  type, and the interpolation function is a parameter.
- **Spectrum-to-hue mapper** (module `Hue`). It covers the speaker-layout
  remap table, the average magnitude over every bin of the history, and the
  linear rescale of [0, 255] to [0, 360]. The per-bin colour spline is here
  too.

Floating-point numbers are modelled as `real`s. π is 3.141592653589793,
the shortest decimal that rounds to the double the program uses (the
double itself is 3.14159265358979311599…). The speeds and the bob
frequency are the constructor's: yaw speed 8, pitch speed 5, movement
speed 10, bob frequency 10. The bob nudge 0.000001 is the literal in the
bob update. Every state is an immutable record. The input handlers and
the camera step are pure functions from the old record to the new one.
The source's loops are methods, and so is the hue step that runs the
averaging loop. The segment search and the averaging are tied to
reference functions (`Spline.SegmentStart`, `Hue.AverageHue`); the
look-target scan and the remap table are described directly by their
contracts.

`isReady()` (js/scripts.js:124-126) is the predicate `Input.IsReady`, and
`key()` (js/scripts.js:120-122) is the predicate `Input.Key`. Their
behaviour is stated through the rows of `Input.New`, `Input.OnMouseMove`,
`Input.ReadyOnlyAfterPointerEvent`, `Input.OnKeyDown`, `Input.OnKeyUp`,
`Input.KeyReflectsLastKeyEvent` and `Input.NeverPressedIsUp`.

### Behaviour at the edges

- **Spline, left end.** The code clamps only on the right. A
  query below the first knot interpolates between the first two knots with
  a negative fraction. `Spline.GetExtrapolatesLeft` proves this, and
  `Spline.ThreeKnotExamples` gives `Get(-5) = a - 20·(b - a)`.
- **Spline, empty list.** An empty list makes `Get` read a missing knot
  and throw. The model returns `Failure(EmptySpline)`.
- **Spline, zero-width first segment.** The first two knots can share a
  parameter while the query is at or below it. The code then divides by
  zero. The model returns `Failure(ZeroWidthSegment)`. No other segment
  can have zero width: `Get` proves that its denominator is non-zero there.
- **Head-bob bound.** The bob timer can run past π / frequency. The code
  adds 0.000001 before rounding down, so a timer that
  lands within that nudge below π / frequency aims at the next
  boundary, 2π / frequency, and runs past π / frequency.
  `Camera.BobPassesHalfPeriod` exhibits this. `Camera.BobFirstHalfWave`
  proves the bound for timers outside the nudge window.
- **Empty history.** The code divides by the bin count without checking
  it. `Hue.AverageHue` returns `None` when there are no bins, meaning "no
  signal, keep the previous hue". It also returns `None` when a sample has
  more bins than the remap table, because there the code reads an
  undefined table entry. In the running program the analyser yields 64 bins
  per sample and `Hue.Step` appends a sample before averaging. Neither
  case arises there (`Hue.Step` proves a hue exists then).
- **Motion within a frame.** The camera reads the raw motion of the last
  pointer event of the frame, so earlier events in the same frame are
  overwritten (`Input.LastMoveWins`). In a frame with no pointer event it
  reads the position difference that the previous update computed
  (`Input.DeltaWithoutMotionIsLastUpdate`).

## Model

| member | source | states |
|---|---|---|
| Input.New | js/scripts.js:38-48 | A new controller is not ready, reports every key as up and has zero deltas. |
| Input.OnMouseMove | js/scripts.js:65-80 | With look disabled, a pointer move changes nothing. With look enabled, it records the client position and raw motion, keeps the buttons, makes the controller ready, and creates a baseline at the event's position only if none existed. |
| Input.SetButton | js/scripts.js:85-94 | Button 0 sets the left flag and button 2 the right flag. Any other button changes neither, and nothing else in the snapshot changes. |
| Input.OnMouseDown | js/scripts.js:82-95 | Button 0 or 2 is down afterwards. Buttons it does not name are unchanged. Position, motion and baseline follow the move rule only when look is enabled, and a press that is the first pointer event creates the baseline at its own position. Keys are untouched. |
| Input.OnMouseUp | js/scripts.js:97-110 | Button 0 or 2 is up afterwards. Other buttons are unchanged. Position, motion and baseline follow the move rule only when look is enabled, and a release that is the first pointer event creates the baseline at its own position. Keys are untouched. |
| Input.OnKeyDown | js/scripts.js:112-114 | The key is held afterwards, every other key reads as before, and the snapshots and the camera-look toggle are untouched. |
| Input.OnKeyUp | js/scripts.js:116-118 | The key is up afterwards, every other key reads as before, and the snapshots and the camera-look toggle are untouched. |
| Input.Update | js/scripts.js:128-135 | Before a baseline exists nothing changes. Afterwards the delta is the current position minus the baseline position, and the new baseline is the updated snapshot. Readiness, keys and position are unchanged. |
| Input.ReadyOnlyAfterPointerEvent | js/scripts.js:65-126 | After any event sequence the controller is ready exactly when it already was, or when look is enabled and some pointer, button-down or button-up event occurred. Readiness is never lost. |
| Input.KeyEventsKeepSnapshots | js/scripts.js:112-118 | A run of key events leaves the current and previous snapshots unchanged. |
| Input.SecondUpdateHasZeroDelta | js/scripts.js:128-135 | Two updates with only key events between them leave zero deltas after the second one. |
| Input.FirstUpdateAfterBaselineHasZeroDelta | js/scripts.js:70-133 | The first pointer move creates a baseline at its own position, so the next update yields zero deltas. |
| Input.LastMoveWins | js/scripts.js:77-78 | Of two pointer moves in one frame, only the second one's raw motion remains as the delta. |
| Input.DeltaWithoutMotionIsLastUpdate | js/scripts.js:128-135 | In a frame with only key events, the delta equals the position change that the previous update computed. |
| Input.NeverReadyWithLookDisabled | js/scripts.js:65-80 | With look disabled, no event sequence makes a new controller ready. |
| Input.KeyReflectsLastKeyEvent | js/scripts.js:112-122 | A key reads as the last key-down or key-up for that code (scanning from the end), or as before if there is none. |
| Input.NeverPressedIsUp | js/scripts.js:120-122 | A code with no key-down event reads as not held on a new controller. |
| Spline.AddPoint | js/scripts.js:271-273 | The knot list grows by one, keeps the old knots as its prefix, and ends with the new knot. |
| Spline.FirstAtOrAbove | js/scripts.js:278-283 | The result is the index where the search stops: every earlier knot is below t, and the knot at the index (if any) is at or above t. |
| Spline.FindSegmentStart | js/scripts.js:276-283 | The search loop returns one before the first knot at or above t, 0 if that knot is the first, and the last index if no knot qualifies. |
| Spline.Get | js/scripts.js:275-296 | `Get` fails with EmptySpline exactly when there are no knots. It fails with ZeroWidthSegment exactly when the query is at or below the first knot and the first two knots share a parameter. |
| Spline.GetSingleKnot | js/scripts.js:285-289 | With one knot, every query returns that knot's value unchanged. |
| Spline.GetClampsRight | js/scripts.js:278-289 | When every knot is below t, the result is the last knot's value. |
| Spline.GetInterpolatesSegment | js/scripts.js:285-295 | With two or more knots and some knot at or above t, lerp is applied to adjacent knots p1 and p1+1 at the normalised position of t. |
| Spline.GetExtrapolatesLeft | js/scripts.js:276-295 | Below the first knot the segment is the first one and the fraction is negative, so the left end is not clamped. |
| Spline.FractionWithinSegment | js/scripts.js:291-292 | For strictly ascending knots and t within their range, the fraction passed to lerp lies in [0, 1]. |
| Spline.GetAtKnot | js/scripts.js:275-296 | For strictly ascending knots, and a lerp that returns its end points at 0 and 1, the spline passes through every knot. |
| Spline.ThreeKnotExamples | js/scripts.js:275-296 | On knots 0, 0.25 and 1 with scalar lerp: the value at 0 and at 1 is the knot value, 5 gives the last value, 0.125 gives the midpoint of the first segment, and -5 extrapolates. |
| Camera.Initial | js/scripts.js:143-150 | The constructed camera has pitch in range, a zero bob timer and the bob disarmed. |
| Camera.Clamp | js/scripts.js:245-249 | The result lies in [lo, hi]. It is x itself inside the range and the nearer bound outside it. |
| Camera.UpdateRotation | js/scripts.js:240-249 | The new pitch is the old pitch minus 5 times the vertical delta over the viewport height, clamped to ±π/3, so it lies in range whatever the delta. Rightward motion lowers yaw and leftward motion raises it, and a drag of one full viewport width turns yaw by exactly 8. Vertical motion moves pitch the opposite way, and position and bob are untouched. |
| Camera.KeyPair | js/scripts.js:214-217 | The velocity lies in {-1, 0, 1}. It is +1 exactly when only the plus key is held and -1 exactly when only the minus key is held. It is 0 exactly when both or neither are held. |
| Camera.UpdateTranslation | js/scripts.js:213-238 | Height never changes. With no net key velocity or zero time the position stays put. The bob is armed exactly when some velocity is non-zero or it was already armed, and is never disarmed here. |
| Camera.NextStepTime | js/scripts.js:169-175 | The next bob boundary is an integer multiple of π/10 that is strictly beyond the timer plus the nudge, and less than one π/10 beyond it. From a non-negative timer it is at least π/10. |
| Camera.UpdateBob | js/scripts.js:167-183 | A disarmed bob changes nothing. An armed bob stays armed exactly when timer plus dt stays below the boundary, and then the timer advances by dt. On reaching the boundary it disarms with the timer exactly 0. The timer never becomes negative. |
| Camera.BobFirstHalfWave | js/scripts.js:169-176 | From a timer below π/10 minus the nudge, the boundary is π/10 and the step keeps the timer in [0, π/10). |
| Camera.BobPassesHalfPeriod | js/scripts.js:167-183 | Two armed steps, from 0 by π/10 minus half the nudge and then by π/10, leave the bob armed with a timer beyond π/10. |
| Camera.Step | js/scripts.js:156-165 | The input update always runs. When the input is not ready the camera is unchanged. When it is ready, rotation, translation and the bob run in that order on the snapshot before the input update: the new pitch is the clamped formula, rightward motion lowers yaw and leftward raises it, a movement key arms the bob, and an armed bob (held keys or not) advances its timer by dt in the same frame while it stays short of the next boundary; a frame that reaches the boundary disarms the bob and resets the timer to 0; with no movement key and the bob disarmed the position, timer and flag are unchanged. Pitch ends in range when input is ready (or was already in range), height is kept, and the bob timer stays non-negative for dt ≥ 0. |
| Camera.PitchStaysInRange | js/scripts.js:245-249 | Over any run of frames, pitch stays within ±π/3. |
| Camera.HeightNeverChanges | js/scripts.js:219-233 | Over any run of frames, the camera's height is unchanged: movement stays horizontal. |
| Camera.BobTimerStaysNonNegative | js/scripts.js:167-183 | Over any run of frames with non-negative frame times, the bob timer never goes negative. |
| Camera.StillUntilFirstPointerEvent | js/scripts.js:156-165 | Until the first pointer event the controller stays not ready and the camera does not change, whatever keys are pressed. |
| Camera.StillWhileLookDisabled | js/scripts.js:156-165 | With look disabled, the camera never changes over any run of frames. |
| LookTarget.SelectTarget | js/scripts.js:196-208 | The target is the fallback or some box's hit, and no farther than the fallback or any hit. It is the fallback when no hit is strictly closer. Otherwise it is a strictly closer hit, strictly closer than every earlier hit, so the earliest of equal candidates wins. |
| Hue.BuildRemap | js/scripts.js:947-952 | The table has 101·64 entries and maps every index to itself. |
| Hue.SampleSum | js/scripts.js:982-985 | A sample's magnitudes sum to between 0 and 255 per bin. |
| Hue.Total | js/scripts.js:980-986 | The history's magnitudes sum to between 0 and 255 times the number of bins. |
| Hue.HueOfAverage | js/scripts.js:990-998 | An average in [0, 255] maps into [0, 360]. 0 maps to 0 and 255 maps to 360. |
| Hue.HueIsMonotone | js/scripts.js:995-998 | A larger average gives a strictly larger hue. |
| Hue.AverageHue | js/scripts.js:977-998 | There is no hue exactly when the history has no bins or a sample outruns the remap table. Any hue produced lies in [0, 360]. |
| Hue.ComputeHue | js/scripts.js:977-998 | The nested averaging loop reads bins through the remap table. Its count equals the number of bins across the whole history. Its total equals the sum of all magnitudes when every sample fits the table. Its hue is exactly the average-of-all-bins hue of the history. |
| Hue.Step | js/scripts.js:929-998 | The new sample is appended to the history before averaging. A non-empty sample that fits the table always yields a hue. |
| Hue.TotalConstant | js/scripts.js:980-986 | If every bin equals m, the total is m times the number of bins. |
| Hue.AllZeroIsHueZero | js/scripts.js:977-998 | A history of all-zero bins gives hue 0. |
| Hue.AllMaxIsHueFullCircle | js/scripts.js:977-998 | A history of all-255 bins gives hue 360. |
| Hue.EmptyHistoryHasNoHue | js/scripts.js:988 | An empty history yields no hue rather than a division by zero. |
| Hue.ColorSplineValues | js/scripts.js:938-944 | The colour spline is black at 0 and half-way to pastel red at 0.125. |
| Hue.ColorSplineYellowFromOne | js/scripts.js:938-944 | For every t ≥ 1 the colour spline is pastel yellow: exactly at the last knot, and clamped past it. |

## Left out

- Scene, lights, materials, textures, video and image slideshows, fog and particles (js/scripts.js:319-366, 418-775): object construction and random numbers, with no logic to state.
- Audio loading, playback, the analyser and the timed start of the second song (js/scripts.js:368-416): I/O and browser scheduling. The model takes the sample history as an input.
- Renderer, post-processing, resizing and the animation-frame loop (js/scripts.js:821-922), the FPS counter and the stored song choice (js/scripts.js:1010-1067): rendering and storage side effects.
- The smoothed orientation quaternion (js/scripts.js:251-261): quaternion construction, `slerp` and the `0.001^(5·dt)` factor are floating-point library maths. The camera state has no quaternion.
- The sine bob offset added to the emitted position, and `lookAt` (js/scripts.js:186-189, 210): these only write to the rendered camera object.
- The forward ray and the fallback point 100 units along it (js/scripts.js:191-201): vector algebra on the quaternion. `LookTarget.SelectTarget` receives the fallback point, the box hit function and the distance function as parameters.
- Sine and cosine of the yaw angle are parameters (`Camera.Trig`), so nothing depends on their values.
- `math.clamp` lives in math.js, which is not part of this model. `Camera.Clamp` assumes it is `min(max(x, lo), hi)`.
- The library's conversion of the hue to a colour (`setHSL`) and its assignment to the spotlights (js/scripts.js:975-976, 1000-1008) are not part of this model. The model ends at the hue value.
- `previousKeys_` (js/scripts.js:49) is written but never read, so it is not part of the model.
- Camera.UpdateRotation: assumes a positive viewport width and height. The program divides by them, and a zero-size window would give infinities.
- Camera.UpdateRotation: states the direction of the yaw change and its scale for a full-width drag, not the general yaw formula; the pitch formula is stated in full.
- Camera.UpdateTranslation: states that movement is horizontal and when the position stays put, not the displacement vector itself, because that depends on the caller-supplied sine and cosine.

=== FILE: camera.dfy ===
/**
 * Per-frame rules of the first-person camera: yaw and clamped pitch from
 * the mouse delta, translation from the W/A/S/D keys, and the head-bob
 * phase timer. Everything is gated on the input controller being ready.
 *
 * The smoothed orientation quaternion, the sine bob offset and the final
 * `lookAt` are rendering-side algebra and are not part of the state here;
 * sine and cosine of the yaw angle are supplied by the caller.
 */
module Camera {
  import Input

  /** Pi as the camera uses it: the shortest decimal that rounds to the double `Math.PI`. */
  const Pi: real := 3.141592653589793

  /** Pitch is kept within [-PitchLimit, PitchLimit]. */
  const PitchLimit: real := Pi / 3.0

  const PhiSpeed: real := 8.0
  const ThetaSpeed: real := 5.0
  const MovementSpeed: real := 10.0

  /** Head-bob: wavelength, frequency, and the nudge added before rounding down. */
  const WaveLength: real := Pi
  const BobFrequency: real := 10.0
  const BobEpsilon: real := 0.000001

  /** The first bob boundary from rest, pi / 10 seconds. */
  const HalfPeriod: real := WaveLength / BobFrequency

  datatype Vec3 = Vec3(x: real, y: real, z: real) {
    function Plus(o: Vec3): Vec3 {
      Vec3(x + o.x, y + o.y, z + o.z)
    }

    function Times(k: real): Vec3 {
      Vec3(x * k, y * k, z * k)
    }
  }

  /** Sine and cosine, supplied by the host. */
  datatype Trig = Trig(sin: real -> real, cos: real -> real)

  /** Yaw, pitch, position and the head-bob oscillator. */
  datatype State = State(phi: real, theta: real, translation: Vec3, bobTimer: real, bobActive: bool)

  /** The camera after one frame, and the input controller after its update. */
  datatype Frame = Frame(camera: State, input: Input.Controller)

  /** The camera as constructed: facing a quarter turn left, level, at (30, 2, 0). */
  function Initial(): (s: State)
    ensures PitchInRange(s) && s.bobTimer == 0.0 && !s.bobActive
  {
    State(Pi / 2.0, 0.0, Vec3(30.0, 2.0, 0.0), 0.0, false)
  }

  predicate PitchInRange(s: State) {
    -PitchLimit <= s.theta <= PitchLimit
  }

  /** `min(max(x, lo), hi)`: `x` pulled into [lo, hi]. */
  function Clamp(x: real, lo: real, hi: real): (r: real)
    requires lo <= hi
    ensures lo <= r <= hi
    ensures lo <= x <= hi ==> r == x
    ensures x < lo ==> r == lo
    ensures hi < x ==> r == hi
  {
    var m := if x > lo then x else lo;
    if m < hi then m else hi
  }

  /**
   * Orientation: the mouse delta, normalised by the viewport, turns yaw
   * freely and pitch within the limit. Moving right or down turns the view
   * right or down.
   */
  function UpdateRotation(s: State, snap: Input.Snapshot, width: real, height: real): (r: State)
    requires width > 0.0 && height > 0.0
    ensures PitchInRange(r)
    ensures snap.mouseXDelta == 0.0 ==> r.phi == s.phi
    ensures snap.mouseXDelta > 0.0 ==> r.phi < s.phi
    ensures snap.mouseXDelta < 0.0 ==> r.phi > s.phi
    ensures snap.mouseXDelta == width ==> r.phi == s.phi - PhiSpeed
    ensures r.theta == Clamp(s.theta - snap.mouseYDelta / height * ThetaSpeed, -PitchLimit, PitchLimit)
    ensures PitchInRange(s) && snap.mouseYDelta == 0.0 ==> r.theta == s.theta
    ensures PitchInRange(s) && snap.mouseYDelta > 0.0 ==> r.theta <= s.theta
    ensures PitchInRange(s) && snap.mouseYDelta < 0.0 ==> r.theta >= s.theta
    ensures r.translation == s.translation && r.bobTimer == s.bobTimer && r.bobActive == s.bobActive
  {
    var xh := snap.mouseXDelta / width;
    var yh := snap.mouseYDelta / height;
    SignOfQuotient(snap.mouseXDelta, width);
    SignOfQuotient(snap.mouseYDelta, height);
    s.(phi := s.phi + -xh * PhiSpeed,
       theta := Clamp(s.theta + -yh * ThetaSpeed, -PitchLimit, PitchLimit))
  }

  /** Helper: dividing by a positive number keeps the sign. */
  lemma SignOfQuotient(a: real, b: real)
    requires b > 0.0
    ensures a == 0.0 ==> a / b == 0.0
    ensures a > 0.0 ==> a / b > 0.0
    ensures a < 0.0 ==> a / b < 0.0
  {
  }

  /**
   * Net of an opposing key pair: +1 when only `plus` is held, -1 when only
   * `minus` is, 0 when both or neither are.
   */
  function KeyPair(c: Input.Controller, plus: int, minus: int): (v: int)
    ensures -1 <= v <= 1
    ensures v == 1 <==> Input.Key(c, plus) && !Input.Key(c, minus)
    ensures v == -1 <==> Input.Key(c, minus) && !Input.Key(c, plus)
    ensures v == 0 <==> Input.Key(c, plus) == Input.Key(c, minus)
  {
    (if Input.Key(c, plus) then 1 else 0) + (if Input.Key(c, minus) then -1 else 0)
  }

  /** W moves forward, S backward. */
  function ForwardVelocity(c: Input.Controller): int {
    KeyPair(c, Input.KeyW, Input.KeyS)
  }

  /** A strafes left, D right. */
  function StrafeVelocity(c: Input.Controller): int {
    KeyPair(c, Input.KeyA, Input.KeyD)
  }

  /** Forward direction for yaw `phi`: (0, 0, -1) turned about the vertical axis. */
  function Forward(phi: real, trig: Trig): Vec3 {
    Vec3(-trig.sin(phi), 0.0, -trig.cos(phi))
  }

  /** Left direction for yaw `phi`: (-1, 0, 0) turned about the vertical axis. */
  function Left(phi: real, trig: Trig): Vec3 {
    Vec3(-trig.cos(phi), 0.0, trig.sin(phi))
  }

  /**
   * Translation: move along the yaw-only forward and left directions by
   * velocity times speed times elapsed time. Any movement key arms the bob;
   * nothing here disarms it.
   */
  function UpdateTranslation(s: State, c: Input.Controller, dt: real, trig: Trig): (r: State)
    ensures r.translation.y == s.translation.y
    ensures ForwardVelocity(c) == 0 && StrafeVelocity(c) == 0 ==> r.translation == s.translation
    ensures dt == 0.0 ==> r.translation == s.translation
    ensures r.bobActive <==> ForwardVelocity(c) != 0 || StrafeVelocity(c) != 0 || s.bobActive
    ensures r.phi == s.phi && r.theta == s.theta && r.bobTimer == s.bobTimer
  {
    var fv := ForwardVelocity(c) as real;
    var sv := StrafeVelocity(c) as real;
    var forward := Forward(s.phi, trig).Times(fv * MovementSpeed * dt);
    var left := Left(s.phi, trig).Times(sv * MovementSpeed * dt);
    var moving := ForwardVelocity(c) != 0 || StrafeVelocity(c) != 0;
    s.(translation := s.translation.Plus(forward).Plus(left),
       bobActive := if moving then true else s.bobActive)
  }

  /** The `n`-th bob boundary. */
  function BobBoundary(n: int): real {
    (n as real) * HalfPeriod
  }

  /**
   * The next bob boundary: the first multiple of `HalfPeriod` beyond the
   * timer plus the nudge.
   */
  function NextStepTime(timer: real): (r: real)
    ensures exists n: int :: r == BobBoundary(n)
    ensures r > timer + BobEpsilon
    ensures r - HalfPeriod <= timer + BobEpsilon
    ensures timer >= 0.0 ==> r >= HalfPeriod
  {
    var nextStep := 1 + ((timer + BobEpsilon) * BobFrequency / WaveLength).Floor;
    var r := (nextStep as real) * WaveLength / BobFrequency;
    assert r == BobBoundary(nextStep);
    r
  }

  /**
   * Head-bob: while armed the timer advances, but never past the next
   * boundary; reaching it exactly disarms the bob and resets the timer.
   */
  function UpdateBob(s: State, dt: real): (r: State)
    ensures !s.bobActive ==> r == s
    ensures s.bobActive ==> (r.bobActive <==> s.bobTimer + dt < NextStepTime(s.bobTimer))
    ensures s.bobActive && r.bobActive ==> r.bobTimer == s.bobTimer + dt < NextStepTime(s.bobTimer)
    ensures s.bobActive && !r.bobActive ==> r.bobTimer == 0.0
    ensures s.bobTimer >= 0.0 && dt >= 0.0 ==> r.bobTimer >= 0.0
    ensures r.phi == s.phi && r.theta == s.theta && r.translation == s.translation
  {
    if !s.bobActive then s
    else
      var nextStepTime := NextStepTime(s.bobTimer);
      var timer := if s.bobTimer + dt < nextStepTime then s.bobTimer + dt else nextStepTime;
      if timer == nextStepTime then s.(bobActive := false, bobTimer := 0.0)
      else s.(bobTimer := timer)
  }

  /**
   * From a timer before the nudge window below `HalfPeriod`, the next
   * boundary is `HalfPeriod`, so the step does not pass it.
   */
  lemma BobFirstHalfWave(s: State, dt: real)
    requires s.bobActive && 0.0 <= s.bobTimer < HalfPeriod - BobEpsilon && dt >= 0.0
    ensures NextStepTime(s.bobTimer) == HalfPeriod
    ensures 0.0 <= UpdateBob(s, dt).bobTimer < HalfPeriod
  {
  }

  /**
   * The nudge lets the timer run past `HalfPeriod`: a timer that lands just
   * short of it aims at the following boundary.
   */
  lemma BobPassesHalfPeriod()
    ensures var s0 := State(0.0, 0.0, Vec3(0.0, 0.0, 0.0), 0.0, true);
            var s1 := UpdateBob(s0, HalfPeriod - BobEpsilon / 2.0);
            var s2 := UpdateBob(s1, HalfPeriod);
            s1.bobActive && s2.bobActive && s2.bobTimer > HalfPeriod
  {
  }

  /**
   * One frame: when the input is ready, rotation, translation and bob are
   * updated in that order; in every case the input controller's update
   * runs afterwards.
   */
  function Step(s: State, c: Input.Controller, dt: real, width: real, height: real, trig: Trig): (r: Frame)
    requires width > 0.0 && height > 0.0
    ensures r.input == Input.Update(c)
    ensures !Input.IsReady(c) ==> r.camera == s
    ensures Input.IsReady(c) ==>
      r.camera.theta == Clamp(s.theta - c.current.mouseYDelta / height * ThetaSpeed, -PitchLimit, PitchLimit)
    ensures Input.IsReady(c) || PitchInRange(s) ==> PitchInRange(r.camera)
    ensures Input.IsReady(c) && c.current.mouseXDelta == 0.0 ==> r.camera.phi == s.phi
    ensures Input.IsReady(c) && c.current.mouseXDelta > 0.0 ==> r.camera.phi < s.phi
    ensures Input.IsReady(c) && c.current.mouseXDelta < 0.0 ==> r.camera.phi > s.phi
    ensures Input.IsReady(c) && (ForwardVelocity(c) != 0 || StrafeVelocity(c) != 0) &&
            0.0 <= dt && s.bobTimer + dt < NextStepTime(s.bobTimer) ==>
              r.camera.bobActive && r.camera.bobTimer == s.bobTimer + dt
    ensures Input.IsReady(c) && !s.bobActive && ForwardVelocity(c) == 0 && StrafeVelocity(c) == 0 ==>
              r.camera.translation == s.translation && !r.camera.bobActive && r.camera.bobTimer == s.bobTimer
    ensures Input.IsReady(c) && s.bobActive && s.bobTimer + dt < NextStepTime(s.bobTimer) ==>
              r.camera.bobActive && r.camera.bobTimer == s.bobTimer + dt
    ensures Input.IsReady(c) && (s.bobActive || ForwardVelocity(c) != 0 || StrafeVelocity(c) != 0) &&
            s.bobTimer + dt >= NextStepTime(s.bobTimer) ==>
              !r.camera.bobActive && r.camera.bobTimer == 0.0
    ensures r.camera.translation.y == s.translation.y
    ensures s.bobTimer >= 0.0 && dt >= 0.0 ==> r.camera.bobTimer >= 0.0
  {
    var next :=
      if Input.IsReady(c) then
        var rotated := UpdateRotation(s, c.current, width, height);
        var moved := UpdateTranslation(rotated, c, dt, trig);
        UpdateBob(moved, dt)
      else s;
    Frame(next, Input.Update(c))
  }

  /** The host's input for one frame: the device events, then the elapsed time. */
  datatype FrameInput = FrameInput(events: seq<Input.Event>, dt: real)

  /** A run of frames: each frame's events reach the controller, then `Step` runs. */
  function Run(s: State, c: Input.Controller, frames: seq<FrameInput>, width: real, height: real, trig: Trig): Frame
    requires width > 0.0 && height > 0.0
    decreases |frames|
  {
    if |frames| == 0 then Frame(s, c)
    else
      var f := Step(s, Input.ApplyAll(c, frames[0].events), frames[0].dt, width, height, trig);
      Run(f.camera, f.input, frames[1..], width, height, trig)
  }

  /** Pitch stays within its limit over any run, whatever the mouse does. */
  lemma {:induction false} PitchStaysInRange(s: State, c: Input.Controller, frames: seq<FrameInput>,
                                              width: real, height: real, trig: Trig)
    requires width > 0.0 && height > 0.0
    requires PitchInRange(s)
    ensures PitchInRange(Run(s, c, frames, width, height, trig).camera)
    decreases |frames|
  {
    if |frames| > 0 {
      var f := Step(s, Input.ApplyAll(c, frames[0].events), frames[0].dt, width, height, trig);
      PitchStaysInRange(f.camera, f.input, frames[1..], width, height, trig);
    }
  }

  /** Movement is horizontal: the height never changes over any run. */
  lemma {:induction false} HeightNeverChanges(s: State, c: Input.Controller, frames: seq<FrameInput>,
                                               width: real, height: real, trig: Trig)
    requires width > 0.0 && height > 0.0
    ensures Run(s, c, frames, width, height, trig).camera.translation.y == s.translation.y
    decreases |frames|
  {
    if |frames| > 0 {
      var f := Step(s, Input.ApplyAll(c, frames[0].events), frames[0].dt, width, height, trig);
      HeightNeverChanges(f.camera, f.input, frames[1..], width, height, trig);
    }
  }

  /** With non-negative frame times the bob timer is never negative. */
  lemma {:induction false} BobTimerStaysNonNegative(s: State, c: Input.Controller, frames: seq<FrameInput>,
                                                     width: real, height: real, trig: Trig)
    requires width > 0.0 && height > 0.0
    requires s.bobTimer >= 0.0
    requires forall i :: 0 <= i < |frames| ==> frames[i].dt >= 0.0
    ensures Run(s, c, frames, width, height, trig).camera.bobTimer >= 0.0
    decreases |frames|
  {
    if |frames| > 0 {
      var f := Step(s, Input.ApplyAll(c, frames[0].events), frames[0].dt, width, height, trig);
      BobTimerStaysNonNegative(f.camera, f.input, frames[1..], width, height, trig);
    }
  }

  /** No pointer event in any frame. */
  predicate NoPointerEvents(frames: seq<FrameInput>) {
    forall i, j :: 0 <= i < |frames| && 0 <= j < |frames[i].events| ==> !frames[i].events[j].IsPointerEvent()
  }

  /**
   * Until a pointer event arrives the input is not ready and the camera
   * does not move or turn at all, whatever keys are pressed.
   */
  lemma {:induction false} StillUntilFirstPointerEvent(s: State, c: Input.Controller, frames: seq<FrameInput>,
                                                        width: real, height: real, trig: Trig)
    requires width > 0.0 && height > 0.0
    requires !Input.IsReady(c) && NoPointerEvents(frames)
    ensures Run(s, c, frames, width, height, trig).camera == s
    ensures !Input.IsReady(Run(s, c, frames, width, height, trig).input)
    decreases |frames|
  {
    if |frames| > 0 {
      var events := frames[0].events;
      Input.ReadyOnlyAfterPointerEvent(c, events);
      var f := Step(s, Input.ApplyAll(c, events), frames[0].dt, width, height, trig);
      assert NoPointerEvents(frames[1..]) by {
        forall i, j | 0 <= i < |frames[1..]| && 0 <= j < |frames[1..][i].events|
          ensures !frames[1..][i].events[j].IsPointerEvent()
        {
          assert frames[1..][i] == frames[i + 1];
        }
      }
      StillUntilFirstPointerEvent(f.camera, f.input, frames[1..], width, height, trig);
    }
  }

  /** With camera look disabled readiness never arrives, so the camera never moves. */
  lemma {:induction false} StillWhileLookDisabled(s: State, c: Input.Controller, frames: seq<FrameInput>,
                                            width: real, height: real, trig: Trig)
    requires width > 0.0 && height > 0.0
    requires !Input.IsReady(c) && !c.lookEnabled
    ensures Run(s, c, frames, width, height, trig).camera == s
    decreases |frames|
  {
    if |frames| > 0 {
      Input.ReadyOnlyAfterPointerEvent(c, frames[0].events);
      var f := Step(s, Input.ApplyAll(c, frames[0].events), frames[0].dt, width, height, trig);
      StillWhileLookDisabled(f.camera, f.input, frames[1..], width, height, trig);
    }
  }
}

=== FILE: hue.dfy ===
/**
 * The per-frame audio-to-colour mapping: the average magnitude of every
 * bin of every stored spectrum sample, read through the speaker-layout
 * remap table, rescaled linearly from [0, 255] to a hue in [0, 360].
 *
 * The average is undefined when there are no bins, and a bin beyond the
 * remap table reads as an undefined number; both give `None`, which the
 * host takes as "no signal, keep the previous hue".
 */
module Hue {
  import opened Wrappers
  import Spline

  /** One frequency bin's magnitude, as the analyser reports it. */
  type Byte = x: int | 0 <= x < 256

  /** The magnitudes of one spectrum sample, one per bin. */
  type Sample = seq<Byte>

  const MaxMagnitude: int := 255
  const MaxHue: real := 360.0

  /** The remap table covers columns -50..50 of 64 rows each. */
  const RemapColumns: int := 101
  const RemapRows: int := 64
  const RemapSize: int := RemapColumns * RemapRows

  /**
   * The speaker-layout table, built as the frame loop builds it: entry
   * `(x + 50) * 64 + y` for x in -50..50 and y in 0..63. It is the
   * identity on its domain.
   */
  method BuildRemap() returns (remap: seq<int>)
    ensures |remap| == RemapSize
    ensures forall i :: 0 <= i < |remap| ==> remap[i] == i
  {
    remap := [];
    var x := -50;
    while x <= 50
      invariant -50 <= x <= 51
      invariant |remap| == (x + 50) * RemapRows
      invariant forall i :: 0 <= i < |remap| ==> remap[i] == i
    {
      var y := 0;
      while y < RemapRows
        invariant 0 <= y <= RemapRows
        invariant |remap| == (x + 50) * RemapRows + y
        invariant forall i :: 0 <= i < |remap| ==> remap[i] == i
      {
        remap := remap + [(x + 50) * RemapRows + y];
        y := y + 1;
      }
      x := x + 1;
    }
  }

  /** Sum of the magnitudes of one sample. */
  function SampleSum(data: Sample): (r: int)
    ensures 0 <= r <= MaxMagnitude * |data|
    decreases |data|
  {
    if |data| == 0 then 0 else SampleSum(data[..|data| - 1]) + data[|data| - 1]
  }

  /** Number of bins across the whole history. */
  function BinCount(history: seq<Sample>): nat
    decreases |history|
  {
    if |history| == 0 then 0 else BinCount(history[..|history| - 1]) + |history[|history| - 1]|
  }

  /** Sum of every magnitude across the whole history. */
  function Total(history: seq<Sample>): (r: int)
    ensures 0 <= r <= MaxMagnitude * BinCount(history)
    decreases |history|
  {
    if |history| == 0 then 0 else Total(history[..|history| - 1]) + SampleSum(history[|history| - 1])
  }

  /** Every sample fits the remap table. */
  predicate FitsRemap(history: seq<Sample>) {
    forall q :: 0 <= q < |history| ==> |history[q]| <= RemapSize
  }

  /** The linear map of `x` from [inMin, inMax] onto [outMin, outMax]. */
  function LinearRemap(x: real, inMin: real, inMax: real, outMin: real, outMax: real): real
    requires inMin != inMax
  {
    (x - inMin) * (outMax - outMin) / (inMax - inMin) + outMin
  }

  /** An average magnitude in [0, 255] as a hue in [0, 360], end points to end points. */
  function HueOfAverage(average: real): (h: real)
    ensures 0.0 <= average <= MaxMagnitude as real ==> 0.0 <= h <= MaxHue
    ensures average == 0.0 ==> h == 0.0
    ensures average == MaxMagnitude as real ==> h == MaxHue
  {
    LinearRemap(average, 0.0, MaxMagnitude as real, 0.0, MaxHue)
  }

  /** A louder average gives a strictly larger hue. */
  lemma HueIsMonotone(a: real, b: real)
    requires a < b
    ensures HueOfAverage(a) < HueOfAverage(b)
  {
  }

  /**
   * The hue of a history: the average magnitude over all bins, mapped to a
   * hue. `None` when there is no bin or a sample outruns the remap table.
   */
  function AverageHue(history: seq<Sample>): (r: Option<real>)
    ensures r.None? <==> BinCount(history) == 0 || !FitsRemap(history)
    ensures r.Some? ==> 0.0 <= r.value <= MaxHue
  {
    if BinCount(history) == 0 || !FitsRemap(history) then None
    else
      var count := BinCount(history);
      AverageInRange(Total(history), count);
      Some(HueOfAverage(Total(history) as real / count as real))
  }

  /** Helper: a total of at most 255 per bin averages to at most 255. */
  lemma AverageInRange(total: int, count: nat)
    requires count > 0 && 0 <= total <= MaxMagnitude * count
    ensures 0.0 <= total as real / count as real <= MaxMagnitude as real
  {
  }

  /** The prefix of one more element ends in that element. */
  lemma PrefixStep<T>(s: seq<T>, k: nat)
    requires k < |s|
    ensures s[..k + 1][..k] == s[..k] && s[..k + 1][k] == s[k]
  {
  }

  /**
   * The averaging loop of the frame: every bin of every sample, read through
   * the remap table, is added to the total and counted.
   */
  method ComputeHue(history: seq<Sample>) returns (total: int, count: nat, hue: Option<real>)
    ensures count == BinCount(history)
    ensures FitsRemap(history) ==> total == Total(history)
    ensures hue == AverageHue(history)
    ensures hue.Some? ==> 0.0 <= hue.value <= MaxHue
  {
    var remap := BuildRemap();
    total := 0;
    count := 0;
    var defined := true;
    var r := 0;
    while r < |history|
      invariant 0 <= r <= |history|
      invariant count == BinCount(history[..r])
      invariant defined <==> FitsRemap(history[..r])
      invariant defined ==> total == Total(history[..r])
    {
      var data := history[r];
      var i := 0;
      while i < |data|
        invariant 0 <= i <= |data|
        invariant count == BinCount(history[..r]) + i
        invariant defined <==> FitsRemap(history[..r]) && (i <= RemapSize || |data| <= RemapSize)
        invariant defined ==> total == Total(history[..r]) + SampleSum(data[..i])
      {
        if i < |remap| {
          PrefixStep(data, i);
          total := total + data[remap[i]];
        } else {
          defined := false;
        }
        count := count + 1;
        i := i + 1;
      }
      assert data[..|data|] == data;
      PrefixStep(history, r);
      r := r + 1;
    }
    assert history[..|history|] == history;
    if !defined || count == 0 {
      hue := None;
    } else {
      hue := Some(HueOfAverage(total as real / count as real));
    }
  }

  /**
   * One frame of the mapper: the newest sample joins the history, then the
   * hue of the whole history is computed. A non-empty sample that fits the
   * table always yields a hue.
   */
  method Step(history: seq<Sample>, sample: Sample) returns (next: seq<Sample>, hue: Option<real>)
    ensures next == history + [sample]
    ensures hue == AverageHue(next)
    ensures FitsRemap(history) && 0 < |sample| <= RemapSize ==> hue.Some?
  {
    next := history + [sample];
    assert next[..|next| - 1] == history;
    var _, _, h := ComputeHue(next);
    hue := h;
  }

  /** Every bin of the history equals `m`. */
  predicate AllBins(history: seq<Sample>, m: Byte) {
    forall q, i :: 0 <= q < |history| && 0 <= i < |history[q]| ==> history[q][i] == m
  }

  /** A sample whose bins all equal `m` sums to `m` per bin. */
  lemma {:induction false} SampleSumConstant(data: Sample, m: Byte)
    requires forall i :: 0 <= i < |data| ==> data[i] == m
    ensures SampleSum(data) == m * |data|
    decreases |data|
  {
    if |data| > 0 {
      SampleSumConstant(data[..|data| - 1], m);
    }
  }

  /** A history whose bins all equal `m` totals `m` per bin. */
  lemma {:induction false} TotalConstant(history: seq<Sample>, m: Byte)
    requires AllBins(history, m)
    ensures Total(history) == m * BinCount(history)
    decreases |history|
  {
    if |history| > 0 {
      var init := history[..|history| - 1];
      var last := history[|history| - 1];
      assert forall i :: 0 <= i < |last| ==> last[i] == m;
      SampleSumConstant(last, m);
      assert AllBins(init, m) by {
        forall q, i | 0 <= q < |init| && 0 <= i < |init[q]|
          ensures init[q][i] == m
        {
          assert init[q] == history[q];
        }
      }
      TotalConstant(init, m);
      calc {
        Total(history);
        Total(init) + SampleSum(last);
        m * BinCount(init) + m * |last|;
        m * (BinCount(init) + |last|);
        m * BinCount(history);
      }
    }
  }

  /** Silence maps to hue 0. */
  lemma AllZeroIsHueZero(history: seq<Sample>)
    requires AllBins(history, 0) && BinCount(history) > 0 && FitsRemap(history)
    ensures AverageHue(history) == Some(0.0)
  {
    TotalConstant(history, 0);
  }

  /** Full-scale magnitudes map to hue 360. */
  lemma AllMaxIsHueFullCircle(history: seq<Sample>)
    requires AllBins(history, 255) && BinCount(history) > 0 && FitsRemap(history)
    ensures AverageHue(history) == Some(MaxHue)
  {
    TotalConstant(history, 255);
    FullScaleAverage(Total(history), BinCount(history));
  }

  /** Helper: a total of exactly 255 per bin averages to 255. */
  lemma FullScaleAverage(total: int, count: nat)
    requires count > 0 && total == MaxMagnitude * count
    ensures total as real / count as real == MaxMagnitude as real
  {
  }

  /** An empty history has no bins, so there is no hue to emit. */
  lemma EmptyHistoryHasNoHue()
    ensures AverageHue([]) == None
  {
  }

  /** An RGB colour with channels in [0, 1]. */
  datatype Color = Color(r: real, g: real, b: real)

  /** Channel-wise linear interpolation, as the colour library does it. */
  function ColorLerp(f: real, a: Color, b: Color): Color {
    Color(a.r + (b.r - a.r) * f, a.g + (b.g - a.g) * f, a.b + (b.b - a.b) * f)
  }

  /** Black at 0, pastel red (#ffa6a6) at 0.25, pastel yellow (#ffffb3) at 1. */
  function ColorSpline(): seq<Spline.Point<Color>> {
    [Spline.Point(0.0, Color(0.0, 0.0, 0.0)),
     Spline.Point(0.25, Color(1.0, 166.0 / 255.0, 166.0 / 255.0)),
     Spline.Point(1.0, Color(1.0, 1.0, 179.0 / 255.0))]
  }

  /** The colour spline is black at 0 and half-way to pastel red at 0.125. */
  lemma ColorSplineValues()
    ensures Spline.Get(ColorSpline(), 0.0, ColorLerp) == Success(Color(0.0, 0.0, 0.0))
    ensures Spline.Get(ColorSpline(), 0.125, ColorLerp) == Success(Color(0.5, 83.0 / 255.0, 83.0 / 255.0))
  {
    var ps := ColorSpline();
    Spline.FirstAtOrAboveIs(ps, 0.0, 0);
    assert Spline.Fraction(ps, 0, 0.0) == 0.0;
    Spline.FirstAtOrAboveIs(ps, 0.125, 1);
    assert Spline.Fraction(ps, 0, 0.125) == 0.5;
  }

  /** From 1 onwards the colour spline is pastel yellow: exactly at the last knot, and clamped past it. */
  lemma ColorSplineYellowFromOne(t: real)
    requires t >= 1.0
    ensures Spline.Get(ColorSpline(), t, ColorLerp) == Success(Color(1.0, 1.0, 179.0 / 255.0))
  {
    var ps := ColorSpline();
    if t == 1.0 {
      Spline.FirstAtOrAboveIs(ps, 1.0, 2);
      assert Spline.Fraction(ps, 1, 1.0) == 1.0;
    } else {
      Spline.GetClampsRight(ps, t, ColorLerp);
    }
  }
}

=== FILE: input.dfy ===
/**
 * The input controller of the first-person view: pointer and keyboard events
 * update a current snapshot, and a once-per-frame `Update` turns it into
 * frame deltas and remembers it as the previous snapshot.
 *
 * The controller is an immutable record; every event and `Update` return a
 * new one. The process-wide "camera look enabled" toggle is the
 * `lookEnabled` field.
 */
module Input {
  import opened Wrappers

  /** Key codes the camera reads (W, A, S, D). */
  const KeyA: int := 65
  const KeyS: int := 83
  const KeyW: int := 87
  const KeyD: int := 68

  /** Pointer buttons with a meaning: 0 is the primary, 2 the secondary one. */
  const PrimaryButton: int := 0
  const SecondaryButton: int := 2

  /** One snapshot of the pointer: buttons, absolute position and motion. */
  datatype Snapshot = Snapshot(
    leftButton: bool,
    rightButton: bool,
    mouseXDelta: real,
    mouseYDelta: real,
    mouseX: real,
    mouseY: real)

  /** What a pointer event carries: client position, raw motion and button. */
  datatype PointerEvent = PointerEvent(clientX: real, clientY: real, movementX: real, movementY: real, button: int)

  /** The device events the controller listens to. */
  datatype Event =
    | MouseMove(p: PointerEvent)
    | MouseDown(p: PointerEvent)
    | MouseUp(p: PointerEvent)
    | KeyDown(code: int)
    | KeyUp(code: int)
  {
    /** Mouse down and up also run the move handler first. */
    predicate IsPointerEvent() {
      MouseMove? || MouseDown? || MouseUp?
    }
  }

  /**
   * The controller: the current snapshot, the previous one once a baseline
   * exists, the last known state of every key seen, and the look toggle.
   */
  datatype Controller = Controller(
    current: Snapshot,
    previous: Option<Snapshot>,
    keys: map<int, bool>,
    lookEnabled: bool)

  /** All buttons up, everything at zero. */
  const Rest: Snapshot := Snapshot(false, false, 0.0, 0.0, 0.0, 0.0)

  /** A freshly constructed controller: no baseline, no key seen. */
  function New(lookEnabled: bool): (c: Controller)
    ensures !IsReady(c)
    ensures forall code :: !Key(c, code)
    ensures c.current.mouseXDelta == 0.0 && c.current.mouseYDelta == 0.0
    ensures c.lookEnabled == lookEnabled
  {
    Controller(Rest, None, map[], lookEnabled)
  }

  /** True once a baseline snapshot exists; gates all camera motion. */
  predicate IsReady(c: Controller) {
    c.previous.Some?
  }

  /** Whether `code` is held: false for any code never reported. */
  predicate Key(c: Controller, code: int) {
    code in c.keys && c.keys[code]
  }

  /**
   * Pointer motion. With look disabled nothing changes. Otherwise the
   * position is recorded, the first such event copies the snapshot (new
   * position, old deltas) as the baseline, and the raw motion becomes the
   * current delta.
   */
  function OnMouseMove(c: Controller, e: PointerEvent): (r: Controller)
    ensures !c.lookEnabled ==> r == c
    ensures c.lookEnabled ==>
      && IsReady(r)
      && r.current == c.current.(mouseX := e.clientX, mouseY := e.clientY,
                                 mouseXDelta := e.movementX, mouseYDelta := e.movementY)
      && (IsReady(c) ==> r.previous == c.previous)
      && (!IsReady(c) ==> r.previous.value.mouseX == e.clientX && r.previous.value.mouseY == e.clientY)
    ensures r.keys == c.keys && r.lookEnabled == c.lookEnabled
  {
    if !c.lookEnabled then c
    else
      var moved := c.current.(mouseX := e.clientX, mouseY := e.clientY);
      var previous := if c.previous.None? then Some(moved) else c.previous;
      c.(current := moved.(mouseXDelta := e.movementX, mouseYDelta := e.movementY), previous := previous)
  }

  /** Sets the button `button` names to `down`; other buttons change nothing. */
  function SetButton(s: Snapshot, button: int, down: bool): (r: Snapshot)
    ensures r.leftButton == (if button == PrimaryButton then down else s.leftButton)
    ensures r.rightButton == (if button == SecondaryButton then down else s.rightButton)
    ensures r.(leftButton := s.leftButton, rightButton := s.rightButton) == s
  {
    if button == PrimaryButton then s.(leftButton := down)
    else if button == SecondaryButton then s.(rightButton := down)
    else s
  }

  /** A button event leaves every button it does not name as it was. */
  predicate ButtonsOnlyAsNamed(c: Controller, button: int, r: Controller) {
    && (button != PrimaryButton ==> r.current.leftButton == c.current.leftButton)
    && (button != SecondaryButton ==> r.current.rightButton == c.current.rightButton)
  }

  /**
   * What a button event does besides the button: the pointer part of the
   * move handler (position, motion and baseline only with look enabled),
   * with the keys untouched.
   */
  predicate PointerEffect(c: Controller, e: PointerEvent, r: Controller) {
    && r.keys == c.keys
    && r.lookEnabled == c.lookEnabled
    && (!c.lookEnabled ==>
          && r.previous == c.previous
          && r.current.(leftButton := c.current.leftButton, rightButton := c.current.rightButton) == c.current)
    && (c.lookEnabled ==>
          && IsReady(r)
          && r.current.mouseX == e.clientX && r.current.mouseY == e.clientY
          && r.current.mouseXDelta == e.movementX && r.current.mouseYDelta == e.movementY
          && (IsReady(c) ==> r.previous == c.previous)
          && (!IsReady(c) ==> r.previous.value.mouseX == e.clientX && r.previous.value.mouseY == e.clientY))
  }

  /** Button press: the move handler runs first, then the button goes down. */
  function OnMouseDown(c: Controller, e: PointerEvent): (r: Controller)
    ensures e.button == PrimaryButton ==> r.current.leftButton
    ensures e.button == SecondaryButton ==> r.current.rightButton
    ensures ButtonsOnlyAsNamed(c, e.button, r)
    ensures PointerEffect(c, e, r)
  {
    var m := OnMouseMove(c, e);
    m.(current := SetButton(m.current, e.button, true))
  }

  /** Button release: the move handler runs first, then the button goes up. */
  function OnMouseUp(c: Controller, e: PointerEvent): (r: Controller)
    ensures e.button == PrimaryButton ==> !r.current.leftButton
    ensures e.button == SecondaryButton ==> !r.current.rightButton
    ensures ButtonsOnlyAsNamed(c, e.button, r)
    ensures PointerEffect(c, e, r)
  {
    var m := OnMouseMove(c, e);
    m.(current := SetButton(m.current, e.button, false))
  }

  /** Key press: `code` is held afterwards and no other key changes. */
  function OnKeyDown(c: Controller, code: int): (r: Controller)
    ensures Key(r, code)
    ensures forall other :: other != code ==> Key(r, other) == Key(c, other)
    ensures r.current == c.current && r.previous == c.previous
    ensures r.lookEnabled == c.lookEnabled
  {
    c.(keys := c.keys[code := true])
  }

  /** Key release: `code` is up afterwards and no other key changes. */
  function OnKeyUp(c: Controller, code: int): (r: Controller)
    ensures !Key(r, code)
    ensures forall other :: other != code ==> Key(r, other) == Key(c, other)
    ensures r.current == c.current && r.previous == c.previous
    ensures r.lookEnabled == c.lookEnabled
  {
    c.(keys := c.keys[code := false])
  }

  /** Dispatches one device event to its handler. */
  function Apply(c: Controller, e: Event): Controller {
    match e
    case MouseMove(p) => OnMouseMove(c, p)
    case MouseDown(p) => OnMouseDown(c, p)
    case MouseUp(p) => OnMouseUp(c, p)
    case KeyDown(code) => OnKeyDown(c, code)
    case KeyUp(code) => OnKeyUp(c, code)
  }

  /** The events of one frame, delivered in order. */
  function ApplyAll(c: Controller, events: seq<Event>): Controller
    decreases |events|
  {
    if |events| == 0 then c else ApplyAll(Apply(c, events[0]), events[1..])
  }

  /**
   * The once-per-frame update. Before a baseline exists it changes nothing;
   * afterwards the delta is the current position minus the previous one and
   * the current snapshot becomes the previous one.
   */
  function Update(c: Controller): (r: Controller)
    ensures !IsReady(c) ==> r == c
    ensures IsReady(c) ==>
      && r.current.mouseXDelta == c.current.mouseX - c.previous.value.mouseX
      && r.current.mouseYDelta == c.current.mouseY - c.previous.value.mouseY
      && r.previous == Some(r.current)
    ensures r.current.(mouseXDelta := c.current.mouseXDelta, mouseYDelta := c.current.mouseYDelta) == c.current
    ensures r.keys == c.keys && r.lookEnabled == c.lookEnabled && IsReady(r) == IsReady(c)
  {
    match c.previous
    case None => c
    case Some(prev) =>
      var cur := c.current.(mouseXDelta := c.current.mouseX - prev.mouseX,
                            mouseYDelta := c.current.mouseY - prev.mouseY);
      c.(current := cur, previous := Some(cur))
  }

  /**
   * Readiness only ever comes from a pointer event while look is enabled,
   * and it is never lost.
   */
  lemma {:induction false} ReadyOnlyAfterPointerEvent(c: Controller, events: seq<Event>)
    ensures IsReady(ApplyAll(c, events)) <==>
      IsReady(c) || (c.lookEnabled && exists i :: 0 <= i < |events| && events[i].IsPointerEvent())
    ensures ApplyAll(c, events).lookEnabled == c.lookEnabled
    decreases |events|
  {
    if |events| > 0 {
      var c1 := Apply(c, events[0]);
      ReadyOnlyAfterPointerEvent(c1, events[1..]);
      if c.lookEnabled && !IsReady(c) && !events[0].IsPointerEvent() {
        if exists i :: 0 <= i < |events[1..]| && events[1..][i].IsPointerEvent() {
          var i :| 0 <= i < |events[1..]| && events[1..][i].IsPointerEvent();
          assert events[i + 1].IsPointerEvent();
        }
        if exists i :: 0 <= i < |events| && events[i].IsPointerEvent() {
          var i :| 0 <= i < |events| && events[i].IsPointerEvent();
          assert i > 0 && events[1..][i - 1].IsPointerEvent();
        }
      } else if c.lookEnabled && events[0].IsPointerEvent() {
        assert IsReady(c1);
      }
    }
  }

  /** Key events never touch the pointer snapshots. */
  lemma {:induction false} KeyEventsKeepSnapshots(c: Controller, events: seq<Event>)
    requires forall i :: 0 <= i < |events| ==> !events[i].IsPointerEvent()
    ensures ApplyAll(c, events).current == c.current
    ensures ApplyAll(c, events).previous == c.previous
    decreases |events|
  {
    if |events| > 0 {
      KeyEventsKeepSnapshots(Apply(c, events[0]), events[1..]);
    }
  }

  /**
   * A second update with only key events in between yields zero deltas: all
   * motion since the last frame boundary has already been accounted for.
   */
  lemma SecondUpdateHasZeroDelta(c: Controller, events: seq<Event>)
    requires IsReady(c)
    requires forall i :: 0 <= i < |events| ==> !events[i].IsPointerEvent()
    ensures Update(ApplyAll(Update(c), events)).current.mouseXDelta == 0.0
    ensures Update(ApplyAll(Update(c), events)).current.mouseYDelta == 0.0
  {
    KeyEventsKeepSnapshots(Update(c), events);
  }

  /**
   * The baseline carries the position of the event that created it, so the
   * first update after it, with no further motion, yields zero deltas.
   */
  lemma FirstUpdateAfterBaselineHasZeroDelta(c: Controller, e: PointerEvent)
    requires !IsReady(c) && c.lookEnabled
    ensures IsReady(OnMouseMove(c, e))
    ensures Update(OnMouseMove(c, e)).current.mouseXDelta == 0.0
    ensures Update(OnMouseMove(c, e)).current.mouseYDelta == 0.0
  {
  }

  /**
   * Within one frame only the last pointer event's raw motion is kept as the
   * delta; earlier motion in the same frame is overwritten, not added.
   */
  lemma LastMoveWins(c: Controller, e1: PointerEvent, e2: PointerEvent)
    requires c.lookEnabled
    ensures OnMouseMove(OnMouseMove(c, e1), e2).current.mouseXDelta == e2.movementX
    ensures OnMouseMove(OnMouseMove(c, e1), e2).current.mouseYDelta == e2.movementY
  {
  }

  /**
   * In a frame without pointer events the delta the camera reads is the one
   * the previous update computed, the position change across that frame.
   */
  lemma DeltaWithoutMotionIsLastUpdate(c: Controller, events: seq<Event>)
    requires IsReady(c)
    requires forall i :: 0 <= i < |events| ==> !events[i].IsPointerEvent()
    ensures ApplyAll(Update(c), events).current.mouseXDelta == c.current.mouseX - c.previous.value.mouseX
    ensures ApplyAll(Update(c), events).current.mouseYDelta == c.current.mouseY - c.previous.value.mouseY
  {
    KeyEventsKeepSnapshots(Update(c), events);
  }

  /** With look disabled, no sequence of events ever makes the controller ready. */
  lemma NeverReadyWithLookDisabled(events: seq<Event>)
    ensures !IsReady(ApplyAll(New(false), events))
  {
    ReadyOnlyAfterPointerEvent(New(false), events);
  }

  /**
   * Reference definition of a key's state after a run of events: the last
   * key event for `code`, scanning from the end, or nothing if there is none.
   */
  function LastKeyEvent(events: seq<Event>, code: int): Option<bool>
    decreases |events|
  {
    if |events| == 0 then None
    else
      var e := events[|events| - 1];
      if e.KeyDown? && e.code == code then Some(true)
      else if e.KeyUp? && e.code == code then Some(false)
      else LastKeyEvent(events[..|events| - 1], code)
  }

  /** Applying `events` one more event at a time. */
  lemma {:induction false} ApplyAllSnoc(c: Controller, events: seq<Event>, e: Event)
    ensures ApplyAll(c, events + [e]) == Apply(ApplyAll(c, events), e)
    decreases |events|
  {
    if |events| > 0 {
      assert (events + [e])[1..] == events[1..] + [e];
      ApplyAllSnoc(Apply(c, events[0]), events[1..], e);
    }
  }

  /**
   * `Key` reflects the last key-down or key-up for that code; a code with no
   * such event keeps its earlier state.
   */
  lemma {:induction false} KeyReflectsLastKeyEvent(c: Controller, events: seq<Event>, code: int)
    ensures Key(ApplyAll(c, events), code) == LastKeyEvent(events, code).GetOr(Key(c, code))
    decreases |events|
  {
    if |events| > 0 {
      var init := events[..|events| - 1];
      var last := events[|events| - 1];
      assert events == init + [last];
      ApplyAllSnoc(c, init, last);
      KeyReflectsLastKeyEvent(c, init, code);
    }
  }

  /** A code that was never pressed reads as not held. */
  lemma NeverPressedIsUp(events: seq<Event>, code: int, lookEnabled: bool)
    requires forall i :: 0 <= i < |events| ==> events[i] != KeyDown(code)
    ensures !Key(ApplyAll(New(lookEnabled), events), code)
  {
    KeyReflectsLastKeyEvent(New(lookEnabled), events, code);
    NoKeyDownNoTrue(events, code);
  }

  /** Without a key-down for `code`, the last key event for it is not a press. */
  lemma {:induction false} NoKeyDownNoTrue(events: seq<Event>, code: int)
    requires forall i :: 0 <= i < |events| ==> events[i] != KeyDown(code)
    ensures LastKeyEvent(events, code) != Some(true)
    decreases |events|
  {
    if |events| > 0 {
      NoKeyDownNoTrue(events[..|events| - 1], code);
    }
  }
}

=== FILE: look_target.dfy ===
/**
 * Look-target resolution of the first-person camera: a forward ray is
 * tested against every bounding box, and the closest hit, or a fallback
 * point 100 units ahead, becomes the point the camera looks at.
 *
 * Ray/box intersection and distance from the ray origin are library code,
 * so they are parameters: `intersect` gives the hit point on a box, if any,
 * and `dist` a point's distance from the ray origin.
 */
module LookTarget {
  import opened Wrappers

  /** Box `i` is hit by the ray. */
  predicate Hit<B, P>(boxes: seq<B>, intersect: B -> Option<P>, i: int) {
    0 <= i < |boxes| && intersect(boxes[i]).Some?
  }

  /** The hit point on box `i`. */
  function HitPoint<B, P>(boxes: seq<B>, intersect: B -> Option<P>, i: int): P
    requires Hit(boxes, intersect, i)
  {
    intersect(boxes[i]).value
  }

  /**
   * The scan of the camera: start from the fallback and replace the
   * candidate by a hit only when the hit is strictly closer. The earliest of
   * equally close candidates therefore wins, and the fallback beats a hit at
   * the same distance.
   */
  method SelectTarget<B, P>(boxes: seq<B>, intersect: B -> Option<P>, dist: P -> real, fallback: P)
    returns (closest: P)
    ensures closest == fallback || exists i :: Hit(boxes, intersect, i) && HitPoint(boxes, intersect, i) == closest
    ensures dist(closest) <= dist(fallback)
    ensures forall i :: Hit(boxes, intersect, i) ==> dist(closest) <= dist(HitPoint(boxes, intersect, i))
    ensures (forall i :: Hit(boxes, intersect, i) ==> dist(fallback) <= dist(HitPoint(boxes, intersect, i)))
      ==> closest == fallback
    ensures (exists i :: Hit(boxes, intersect, i) && dist(HitPoint(boxes, intersect, i)) < dist(fallback))
      ==> exists i :: && Hit(boxes, intersect, i) && HitPoint(boxes, intersect, i) == closest
                      && dist(closest) < dist(fallback)
                      && forall j :: 0 <= j < i && Hit(boxes, intersect, j) ==> dist(closest) < dist(HitPoint(boxes, intersect, j))
  {
    closest := fallback;
    ghost var chosen: int := -1;
    var k := 0;
    while k < |boxes|
      invariant 0 <= k <= |boxes|
      invariant -1 <= chosen < k
      invariant dist(closest) <= dist(fallback)
      invariant forall j :: 0 <= j < k && Hit(boxes, intersect, j) ==> dist(closest) <= dist(HitPoint(boxes, intersect, j))
      invariant chosen == -1 ==> closest == fallback
      invariant chosen == -1 ==>
        forall j :: 0 <= j < k && Hit(boxes, intersect, j) ==> dist(fallback) <= dist(HitPoint(boxes, intersect, j))
      invariant chosen >= 0 ==>
        && Hit(boxes, intersect, chosen) && HitPoint(boxes, intersect, chosen) == closest
        && dist(closest) < dist(fallback)
        && forall j :: 0 <= j < chosen && Hit(boxes, intersect, j) ==> dist(closest) < dist(HitPoint(boxes, intersect, j))
    {
      match intersect(boxes[k]) {
        case Some(result) =>
          if dist(result) < dist(closest) {
            closest := result;
            chosen := k;
          }
        case None =>
      }
      k := k + 1;
    }
    if chosen >= 0 {
      assert Hit(boxes, intersect, chosen);
    }
  }
}

=== FILE: spline.dfy ===
/**
 * A linear keyframe spline over any value type: an ordered list of
 * (parameter, value) knots and a caller-supplied interpolation function.
 *
 * `Get` clamps on the right (a query at or past the last knot returns the
 * last value) but NOT on the left: a query below the first knot
 * interpolates between the first two knots with a negative fraction.
 */
module Spline {
  import opened Wrappers

  /** One knot: a parameter and the value the spline takes there. */
  datatype Point<V> = Point(t: real, value: V)

  /** Why `Get` has no value: no knots at all, or a zero-width segment. */
  datatype SplineError = EmptySpline | ZeroWidthSegment

  /** Knots in strictly ascending parameter order. */
  ghost predicate StrictlyAscending<V>(points: seq<Point<V>>) {
    forall i, j :: 0 <= i < j < |points| ==> points[i].t < points[j].t
  }

  /** An interpolation function that returns its end points at 0 and 1. */
  ghost predicate HitsEndPoints<V(!new)>(lerp: (real, V, V) -> V) {
    forall a, b :: lerp(0.0, a, b) == a && lerp(1.0, a, b) == b
  }

  /** Appends a knot; the caller keeps the parameters ascending. */
  function AddPoint<V>(points: seq<Point<V>>, t: real, value: V): (r: seq<Point<V>>)
    ensures |r| == |points| + 1
    ensures r[..|points|] == points
    ensures r[|points|] == Point(t, value)
  {
    points + [Point(t, value)]
  }

  /** The first index whose parameter is at least `t`, or `|points|` if none is. */
  function FirstAtOrAbove<V>(points: seq<Point<V>>, t: real): (k: nat)
    ensures k <= |points|
    ensures forall j :: 0 <= j < k ==> points[j].t < t
    ensures k < |points| ==> points[k].t >= t
    decreases |points|
  {
    if |points| == 0 then 0
    else if points[0].t >= t then 0
    else 1 + FirstAtOrAbove(points[1..], t)
  }

  /**
   * The start of the segment `Get` uses: one before the first knot at or
   * above `t`, 0 when that knot is the first, the last index when there is
   * none.
   */
  function SegmentStart<V>(points: seq<Point<V>>, t: real): nat {
    var k := FirstAtOrAbove(points, t);
    if k == 0 then 0 else k - 1
  }

  /**
   * The search loop of `Get`: walk the knots, stop at the first one whose
   * parameter is at least `t`, and remember the index before it.
   */
  method FindSegmentStart<V>(points: seq<Point<V>>, t: real) returns (p1: nat)
    ensures |points| == 0 ==> p1 == 0
    ensures |points| > 0 ==> p1 < |points|
    ensures forall j :: 0 <= j < p1 ==> points[j].t < t
    ensures p1 + 1 < |points| && p1 > 0 ==> points[p1].t < t <= points[p1 + 1].t
    ensures p1 == 0 && |points| > 1 ==> points[0].t >= t || points[1].t >= t
    ensures p1 + 1 >= |points| && |points| > 1 ==> forall j :: 0 <= j < |points| ==> points[j].t < t
    ensures p1 == SegmentStart(points, t)
  {
    p1 := 0;
    var i := 0;
    while i < |points|
      invariant 0 <= i <= |points|
      invariant forall j :: 0 <= j < i ==> points[j].t < t
      invariant p1 == if i == 0 then 0 else i - 1
    {
      if points[i].t >= t {
        break;
      }
      p1 := i;
      i := i + 1;
    }
    FirstAtOrAboveIs(points, t, i);
  }

  /** `FirstAtOrAbove` is the index that every knot before is below `t` and itself is not. */
  lemma FirstAtOrAboveIs<V>(points: seq<Point<V>>, t: real, i: nat)
    requires i <= |points|
    requires forall j :: 0 <= j < i ==> points[j].t < t
    requires i < |points| ==> points[i].t >= t
    ensures FirstAtOrAbove(points, t) == i
  {
  }

  /** The normalised position of `t` between knots `i` and `i + 1`. */
  function Fraction<V>(points: seq<Point<V>>, i: nat, t: real): real
    requires i + 1 < |points| && points[i + 1].t != points[i].t
  {
    (t - points[i].t) / (points[i + 1].t - points[i].t)
  }

  /**
   * Evaluates the spline at `t`. With one knot, or at and past the last
   * knot, it is that knot's value; otherwise `lerp` is applied to the
   * segment from `SegmentStart` to the next knot.
   */
  function Get<V>(points: seq<Point<V>>, t: real, lerp: (real, V, V) -> V): (r: Result<V, SplineError>)
    ensures r == Failure(EmptySpline) <==> |points| == 0
    ensures r == Failure(ZeroWidthSegment) <==>
      2 <= |points| && FirstAtOrAbove(points, t) == 0 && points[0].t == points[1].t
  {
    if |points| == 0 then Failure(EmptySpline)
    else
      var p1 := SegmentStart(points, t);
      var p2 := if p1 + 1 < |points| then p1 + 1 else |points| - 1;
      if p1 == p2 then Success(points[p1].value)
      else if points[p2].t == points[p1].t then Failure(ZeroWidthSegment)
      else Success(lerp(Fraction(points, p1, t), points[p1].value, points[p2].value))
  }

  /** A single knot is returned unchanged whatever the query. */
  lemma GetSingleKnot<V>(p: Point<V>, t: real, lerp: (real, V, V) -> V)
    ensures Get([p], t, lerp) == Success(p.value)
  {
  }

  /** At or past every knot the spline holds the last value (right clamp). */
  lemma GetClampsRight<V>(points: seq<Point<V>>, t: real, lerp: (real, V, V) -> V)
    requires |points| > 0
    requires forall j :: 0 <= j < |points| ==> points[j].t < t
    ensures Get(points, t, lerp) == Success(points[|points| - 1].value)
  {
  }

  /**
   * When some knot is at or above `t` and there are two or more knots, the
   * spline interpolates between the adjacent knots `SegmentStart` and the
   * one after it.
   */
  lemma GetInterpolatesSegment<V>(points: seq<Point<V>>, t: real, lerp: (real, V, V) -> V)
    requires |points| >= 2
    requires exists j :: 0 <= j < |points| && points[j].t >= t
    ensures var p1 := SegmentStart(points, t);
      && p1 + 1 < |points|
      && (points[p1 + 1].t != points[p1].t ==>
            Get(points, t, lerp) == Success(lerp(Fraction(points, p1, t), points[p1].value, points[p1 + 1].value)))
  {
  }

  /** Below the first knot the fraction is negative: no left clamp. */
  lemma GetExtrapolatesLeft<V>(points: seq<Point<V>>, t: real, lerp: (real, V, V) -> V)
    requires |points| >= 2 && points[0].t < points[1].t
    requires t < points[0].t
    ensures SegmentStart(points, t) == 0
    ensures Fraction(points, 0, t) < 0.0
    ensures Get(points, t, lerp) == Success(lerp(Fraction(points, 0, t), points[0].value, points[1].value))
  {
    NegativeOverPositive(t - points[0].t, points[1].t - points[0].t);
  }

  /**
   * Within the knots of an ascending spline the fraction passed to `lerp`
   * lies in [0, 1].
   */
  lemma FractionWithinSegment<V>(points: seq<Point<V>>, t: real)
    requires |points| >= 2 && StrictlyAscending(points)
    requires points[0].t <= t <= points[|points| - 1].t
    ensures SegmentStart(points, t) + 1 < |points|
    ensures 0.0 <= Fraction(points, SegmentStart(points, t), t) <= 1.0
  {
    var k := FirstAtOrAbove(points, t);
    var p1 := SegmentStart(points, t);
    if k == 0 {
      assert t == points[0].t;
    } else {
      assert points[p1].t < t <= points[p1 + 1].t;
    }
    UnitQuotient(t - points[p1].t, points[p1 + 1].t - points[p1].t);
  }

  /** In an ascending spline a knot's own parameter first reaches that knot. */
  lemma KnotIsFirstAtOrAbove<V>(points: seq<Point<V>>, i: nat)
    requires i < |points| && StrictlyAscending(points)
    ensures FirstAtOrAbove(points, points[i].t) == i
  {
  }

  /**
   * An ascending spline whose interpolation hits its end points passes
   * through every knot.
   */
  lemma GetAtKnot<V(!new)>(points: seq<Point<V>>, i: nat, lerp: (real, V, V) -> V)
    requires i < |points| && StrictlyAscending(points) && HitsEndPoints(lerp)
    ensures Get(points, points[i].t, lerp) == Success(points[i].value)
  {
    KnotIsFirstAtOrAbove(points, i);
    if 0 < i {
      assert points[i - 1].t < points[i].t;
    } else if 1 < |points| {
      assert points[0].t < points[1].t;
    }
    GetAtFirstAtOrAbove(points, i, lerp);
  }

  /** The knot-hitting step of `GetAtKnot`, once the segment is known. */
  lemma GetAtFirstAtOrAbove<V(!new)>(points: seq<Point<V>>, i: nat, lerp: (real, V, V) -> V)
    requires i < |points| && FirstAtOrAbove(points, points[i].t) == i && HitsEndPoints(lerp)
    requires 0 < i ==> points[i - 1].t < points[i].t
    requires i == 0 && 1 < |points| ==> points[0].t < points[1].t
    ensures Get(points, points[i].t, lerp) == Success(points[i].value)
  {
    var t := points[i].t;
    if 0 < i {
      SelfQuotient(t - points[i - 1].t);
      assert Fraction(points, i - 1, t) == 1.0;
      assert lerp(1.0, points[i - 1].value, points[i].value) == points[i].value;
    } else if 1 < |points| {
      assert Fraction(points, 0, t) == 0.0;
      assert lerp(0.0, points[0].value, points[1].value) == points[0].value;
    }
  }

  /** Helper: a negative number over a positive one is negative. */
  lemma NegativeOverPositive(a: real, b: real)
    requires a < 0.0 < b
    ensures a / b < 0.0
  {
  }

  /** Helper: a nonzero number over itself is one. */
  lemma SelfQuotient(a: real)
    requires a != 0.0
    ensures a / a == 1.0
  {
  }

  /** Helper: a quotient of 0 <= a <= b with b > 0 lies in [0, 1]. */
  lemma UnitQuotient(a: real, b: real)
    requires 0.0 <= a <= b && 0.0 < b
    ensures 0.0 <= a / b <= 1.0
  {
  }

  /** Scalar interpolation, the shape every value type's `lerp` follows. */
  function RealLerp(f: real, a: real, b: real): real {
    a + (b - a) * f
  }

  /** Scalar knots at 0, 0.25 and 1 holding `a`, `b` and `c`. */
  function ThreeKnots(a: real, b: real, c: real): seq<Point<real>> {
    [Point(0.0, a), Point(0.25, b), Point(1.0, c)]
  }

  /**
   * The knots, the midpoint of the first segment and the right clamp
   * behave as expected; the left side extrapolates instead of clamping.
   */
  lemma ThreeKnotExamples(a: real, b: real, c: real)
    ensures Get(ThreeKnots(a, b, c), 0.0, RealLerp) == Success(a)
    ensures Get(ThreeKnots(a, b, c), 1.0, RealLerp) == Success(c)
    ensures Get(ThreeKnots(a, b, c), 5.0, RealLerp) == Success(c)
    ensures Get(ThreeKnots(a, b, c), 0.125, RealLerp) == Success((a + b) / 2.0)
    ensures Get(ThreeKnots(a, b, c), -5.0, RealLerp) == Success(a - 20.0 * (b - a))
  {
    var ps := ThreeKnots(a, b, c);
    FirstAtOrAboveIs(ps, 0.0, 0);
    assert Fraction(ps, 0, 0.0) == 0.0;
    FirstAtOrAboveIs(ps, -5.0, 0);
    assert Fraction(ps, 0, -5.0) == -20.0;
    FirstAtOrAboveIs(ps, 0.125, 1);
    assert Fraction(ps, 0, 0.125) == 0.5;
    FirstAtOrAboveIs(ps, 1.0, 2);
    assert Fraction(ps, 1, 1.0) == 1.0;
    GetClampsRight(ps, 5.0, RealLerp);
  }
}

=== FILE: wrappers.dfy ===
/** Failure-carrying results shared by the modules of this model. */
module Wrappers {

  /** A value that may be absent. */
  datatype Option<+T> = None | Some(value: T) {

    /** The carried value, or `default` when there is none. */
    function GetOr(default: T): (r: T)
      ensures Some? ==> r == value
      ensures None? ==> r == default
    {
      match this
      case Some(v) => v
      case None => default
    }
  }

  /** Either a value or the error that prevented computing it. */
  datatype Result<+R, +E> = Success(value: R) | Failure(error: E)
}
